=== FILE: README.md ===
# Chaos: a Dafny model of the particle integrator and the orbit camera

This project models the numerical core of a small Bevy application. The
application moves particles through the flow of a chaotic ODE and lets the
user watch them through an orbiting camera. All arithmetic is over Dafny
`real`, so it is exact and never rounds. The modules follow the program's
components:

- `Vectors` (vectors.dfy): 2- and 3-vectors, positive reals and `Option`.
- `ChaosEquations` (chaos_equations.dfy): the two forward-Euler step
  functions, a uniform drift and Lorenz with rho = 28, sigma = 10 and
  beta = 8/3. It also holds the closed `ChaosEq` selector and the vector
  field each step integrates.
- `Transforms` (transforms.dfy): the part of the engine's `Transform` that
  the core reads or writes. A rotation is kept as the yaw/pitch pair it was
  built from. Its basis vectors come from an opaque `axes` function that
  every caller passes in.
- `Scaler` (scaler.dfy): the fixed factor 10 between simulation space and
  display space (`world_to_virt_coord`, `virt_to_world`,
  `virt_to_world_mut`), plus the transform sync of the particles.
- `Input` (input.dfy): the held and just-pressed keys.
- `Stepper` (stepper.dfy): `ChaosEquationResource` and the changes
  `keybind_listener` makes to it. It also has the per-tick loop of
  `vmove_particle_system` and the n-fold iterate `Iterate` that specifies
  that loop.
- `Particles` (particles.dfy): the particle set as a sequence plus the
  `ParticleCount` counter, with single spawn, cluster spawn and despawn-all.
- `PanOrbit` (pan_orbit.dfy): the state update of `pan_orbit_camera`. It
  covers input accumulation, per-maneuver deltas, the upside-down snapshot,
  multiplicative zoom, the single-pass angle wrap, pan, and the
  "recompute only if something changed or the controller is new" rule.
- `Spawning` (spawning.dfy): the cursor-to-spawn-point arithmetic of
  `mouse_click_system` and its effect on the store.

Foreign and transcendental values are parameters:

- `exp` and `powf(2.0, _)` are functions into the positive reals.
- `tan(CAMERA_FOV / 2)` is an arbitrary real.
- The basis vectors of a rotation come from the opaque `axes` function.

The angle constants are the exact reals of the source's f32 constants
(`PI` = 3.1415927410125732421875, `TAU` = 2 `PI`, `FRAC_PI_2` = `PI` / 2).
The proofs use `PI > 0` and `TAU = 2 PI` exactly.

Behaviour of the code worth knowing when reading the contracts:

- `basic_equation` drifts at rate 1.0 on every axis, so a particle under it
  moves. `Stepper.BasicRunDrift` states by how much.
- The wrap keeps yaw and pitch in the closed range [-PI, PI]. Both ends can
  be reached, because the checks are `> PI` and `< -PI`. The wrap is a
  single pass, so the range is guaranteed when each frame's orbit delta is
  at most `TAU` on each axis; larger deltas can still land in range, but
  need not. `PanOrbit.WrapIsSinglePass` shows an angle that stays out of
  range.
- The Lorenz y-update subtracts `z` where the textbook Lorenz system
  subtracts `y`. The model keeps it as written
  (`ChaosEquations.LorenzYIncrementIgnoresY`,
  `ChaosEquations.LorenzYDiffersFromTextbook`).
- The program has only the basic and Lorenz equations.

## Model

| member | source | states |
|---|---|---|
| ChaosEquations.BasicEquation | src/chaos_equations.rs:10-16 | the result minus the input is (dt, dt, dt); the input is returned unchanged exactly when dt = 0 |
| ChaosEquations.LorenzAttractorEquation | src/chaos_equations.rs:18-28 | a zero step returns the input; the origin is a fixed point for every dt |
| ChaosEquations.StepIsForwardEuler | src/chaos_equations.rs:8-28 | each selectable equation is p + dt * F(p) for a field F that does not depend on dt |
| ChaosEquations.ZeroStepIsIdentity | src/chaos_equations.rs:10-28 | every equation leaves the point unchanged when dt = 0 |
| ChaosEquations.StepFixedIffFieldVanishes | src/chaos_equations.rs:10-28 | for dt != 0 a step leaves p in place if and only if the field vanishes at p |
| ChaosEquations.BasicNeverFixed | src/chaos_equations.rs:11-15 | the drift has no fixed point for a non-zero step |
| ChaosEquations.LorenzXReadsOnlyXY | src/chaos_equations.rs:24 | two points with the same x and y get the same new x |
| ChaosEquations.LorenzYIncrementIgnoresY | src/chaos_equations.rs:25 | the y-increment is the same for points that differ only in y, because the update subtracts z rather than y |
| ChaosEquations.LorenzYDiffersFromTextbook | src/chaos_equations.rs:25 | at (0, 1, 0) with dt = 1 the as-written y-update differs from the textbook x(rho - z) - y form |
| Scaler.WorldToVirtCoord | src/main.rs:630-636 | scaling the result back up by VIRT_ZOOM gives the display coordinates |
| Scaler.WorldToVirt | src/main.rs:638-644 | scaling the result back up by VIRT_ZOOM gives the transform's translation |
| Scaler.VirtToWorld | src/main.rs:646-648 | the translation divided by VIRT_ZOOM is the simulation coordinate; the rotation is identity and the scale is one |
| Scaler.VirtToWorldMut | src/main.rs:650-654 | the new translation divided by VIRT_ZOOM is the coordinate; rotation and scale are kept |
| Scaler.VirtRoundTrip | src/main.rs:638-648 | simulation to display to simulation is the identity |
| Scaler.WorldRoundTrip | src/main.rs:630-648 | display to simulation to display is the identity on positions |
| Scaler.MutAgreesWithFresh | src/main.rs:646-654 | moving a fresh transform in place equals building one at that position |
| Scaler.TransformParticles | src/main.rs:445-449 | each transform maps back to its particle's coordinate and keeps its rotation and scale |
| Stepper.SelectEquation | src/main.rs:506-510 | Digit1 selects basic and wins over Digit2; Digit2 alone selects Lorenz; otherwise the selection is kept |
| Stepper.AdjustSteps | src/main.rs:511-517 | add raises by exactly 1 and wins over subtract; subtract lowers by exactly 1, or leaves 0 at 0; otherwise unchanged |
| Stepper.AdjustDtMult | src/main.rs:518-522 | the exponent moves by exactly +0.2, -0.2 or 0; increase wins over decrease; there is no bound |
| Stepper.KeybindListener | src/main.rs:502-523 | a clear is requested if and only if KeyC was pressed; the equation, the step count and the exponent each change only when one of their own keys was pressed; the step count moves by at most 1; Digit1 selects basic and wins over Digit2 |
| Stepper.KeybindIdle | src/main.rs:502-523 | with none of the listener's keys pressed, the configuration is unchanged and nothing is cleared |
| Stepper.StepsAddSubtract | src/main.rs:511-517 | subtract undoes add; add undoes subtract except at the floor 0 |
| Stepper.EffectiveDt | src/main.rs:440 | the per-sub-step size SIM_DT * 2^dt_mult is positive |
| Stepper.IterateSnoc | src/main.rs:439-441 | n + 1 iterations apply one more step to the result of n iterations |
| Stepper.IterateAdd | src/main.rs:439-441 | m + n iterations are n iterations after m iterations |
| Stepper.IterateFixedPoint | src/main.rs:439-441 | a fixed point of one step is a fixed point of any number of steps |
| Stepper.LorenzOriginStays | src/main.rs:439-441 | any number of Lorenz sub-steps leave the origin in place |
| Stepper.BasicIterateDrift | src/main.rs:439-441 | n basic steps of size dt move every axis by n * dt |
| Stepper.SubstepsAreNotOneLongStep | src/main.rs:439-441 | two Lorenz sub-steps of size 1 differ from one step of size 2, so sub-stepping is not a longer step |
| Stepper.MoveParticle | src/main.rs:439-441 | the loop's result is the steps-fold iterate of the equation at the same dt |
| Stepper.VmoveParticleSystem | src/main.rs:437-443 | every particle becomes the steps-fold iterate at SIM_DT * 2^dt_mult, which is one `Tick`; with 0 steps every particle is unchanged |
| Stepper.RunIsIterate | src/main.rs:437-443 | k ticks of n sub-steps equal k * n iterations of the same dt |
| Stepper.PausedRunKeepsParticles | src/main.rs:437-443 | with 0 sub-steps any number of ticks leaves every particle unchanged |
| Stepper.LorenzOriginRunStays | src/main.rs:437-443 | a particle at the origin under Lorenz is still there after any number of ticks |
| Stepper.BasicRunDrift | src/main.rs:437-443 | under the basic equation, k ticks of n sub-steps move a particle by k * n * dt on each axis |
| Stepper.InitialTickIsOneLorenzStep | src/main.rs:289-296 | with the configuration the program starts with, one tick is a single Lorenz step of size SIM_DT * 2^2.5 |
| Particles.SpawnOne | src/main.rs:429-432 | the count goes up by exactly 1; the old particles are kept and the new one is at the given point; the counter invariant is kept |
| Particles.SpawnCluster | src/main.rs:417-428 | the count goes up by exactly 20; the new particles are base + jitter, each in the unit box above base; the old ones are kept; the counter invariant is kept |
| Particles.DespawnAll | src/main.rs:586-595 | the count is 0 and there are no particles, whatever the prior state |
| Particles.OpsKeepConsistent | src/main.rs:417-432 | after any sequence of spawns and despawns the count equals the number of particles |
| Particles.SpawnsOnlyAppend | src/main.rs:417-432 | without a despawn, spawns only append and existing particles are untouched |
| PanOrbit.TotalMotionAppend | src/main.rs:125-130 | the motion total grows by each event, with its y axis flipped |
| PanOrbit.AccumulateScroll | src/main.rs:132-145 | a stream with no line events leaves the line total zero, and one with no pixel events leaves the pixel total zero |
| PanOrbit.ScrollUnitsSummedApart | src/main.rs:132-145 | however line and pixel events are interleaved, the line total is that of the line events alone and the pixel total that of the pixel events alone |
| PanOrbit.ScrollTotalIsFlippedSum | src/main.rs:132-145 | each unit's total is the sum of that unit's deltas with y negated, the rule the motion total follows |
| PanOrbit.ManeuverDelta | src/main.rs:152-161 | a zero delta for a maneuver with no held key and no scroll binding, with zero sensitivity, with no motion and no scroll, with no motion while unbound from scroll, or with no scroll while its key is up |
| PanOrbit.ScrollDrivesOnlyItsAction | src/main.rs:152-183 | with no maneuver key held, only the maneuver bound to the scroll wheel can get a non-zero delta |
| PanOrbit.SnapshotUpsideDown | src/main.rs:187-189 | when the orbit key goes down the flag says whether the pitch is outside [-PI/2, PI/2]; otherwise the flag is kept |
| PanOrbit.OrientOrbit | src/main.rs:192-194 | the y delta and the magnitude of the x delta are kept; x is reversed exactly when upside down (and non-zero) |
| PanOrbit.ApplyZoom | src/main.rs:200-212 | the radius is multiplied by a positive factor, so it stays positive; a zero zoom delta leaves it unchanged |
| PanOrbit.WrapAngle | src/main.rs:219-231 | the angle changes by 0 or plus or minus TAU; within [-3 PI, 3 PI] the result lies in [-PI, PI]; within [-PI, PI] it is unchanged |
| PanOrbit.WrapIsSinglePass | src/main.rs:219-231 | the wrap takes 4 PI to 2 PI, which is still above PI |
| PanOrbit.ApplyOrbit | src/main.rs:214-232 | a zero delta changes nothing; yaw gains the x delta and pitch loses the y delta, up to a full turn; in-range angles with deltas of at most TAU stay in [-PI, PI] |
| PanOrbit.ApplyPan | src/main.rs:238-243 | a zero pan delta or a zero radius leaves the center in place |
| PanOrbit.PanScalesWithRadius | src/main.rs:238-243 | scaling the radius by k scales the center's displacement by k, so panning speed follows the zoom level |
| PanOrbit.LookAt | src/main.rs:249-256 | the rotation is the yaw/pitch rotation; the camera sits radius along the new back direction from the center |
| PanOrbit.PanOrbitCamera | src/main.rs:147-257 | the radius stays positive; pan uses the radius after this frame's zoom and the axes of the transform from before this frame's rotation update; the transform is recomputed if and only if some delta is non-zero or the controller is new, and otherwise it is unchanged |
| PanOrbit.CameraIdle | src/main.rs:152-256 | with no maneuver key held and no scroll input, center, radius, yaw and pitch are unchanged and the transform is recomputed only on the first frame; the whole state is unchanged unless the orbit key was just pressed |
| PanOrbit.TappedOrbitKeyResnapshots | src/main.rs:185-189 | an orbit key pressed and released within one frame moves nothing but re-takes the upside-down flag from the pitch |
| PanOrbit.FrameKeepsAnglesInRange | src/main.rs:214-232 | one frame whose orbit delta is at most TAU per axis keeps yaw and pitch in [-PI, PI] |
| PanOrbit.RunKeepsRadiusPositive | src/main.rs:200-212 | after any finite sequence of frames the radius is still positive |
| PanOrbit.RunKeepsAnglesInRange | src/main.rs:214-232 | over any sequence of frames with bounded orbit deltas, yaw and pitch stay in [-PI, PI] |
| PanOrbit.DefaultScrollOnlyZooms | src/main.rs:77-90 | with the default bindings and none of their keys held, pan and orbit get zero deltas, so scrolling only zooms |
| PanOrbit.SpawnedCameraStaysValid | src/main.rs:93-105 | the state the camera is spawned with has a positive radius and angles in [-PI, PI], so both run lemmas apply to it; any run of frames from it keeps the radius positive |
| Spawning.Ndc | src/main.rs:410-413 | the window centre maps to (0, 0); a cursor inside the window maps into [-1, 1]; the mapping is inverted by (p + 1) * half size |
| Spawning.SpawnAt | src/main.rs:409-416 | a click at the window centre spawns at the orbit center |
| Spawning.SpawnAtPerPixel | src/main.rs:410-416 | the spawn point is the center moved along the down and right axes of the camera's own transform, by the same radius * tan(fov/2) / half-height per pixel on both axes |
| Spawning.MouseClickSystem | src/main.rs:392-435 | with no cursor nothing changes; with left Shift held it adds exactly 20 particles in the unit box above the scaled spawn point, otherwise exactly 1 at it; old particles and the counter invariant are kept |
| Spawning.CentreClickSpawnsAtCenter | src/main.rs:409-431 | a click at the window centre without Shift puts one particle at the orbit center scaled into simulation space |

## Left out

- ECS and app wiring are not modelled: plugin registration, the `FromWorld` impls of `CubeMeshMaterial` and `OneShotSystems` (src/main.rs:299-321), `Commands`, queries, one-shot system registration and `main` (src/main.rs:601-664). They are framework plumbing. The initial `ChaosEquationResource` and `ParticleCount` are modelled, as `Stepper.INITIAL_CONFIG` and `Particles.EMPTY_STORE`. The particle set is a plain sequence plus a counter.
- The order in which deferred commands are applied is not modelled. This covers a despawn requested by `keybind_listener` in the same frame as spawns from `mouse_click_system`. Each store operation is applied atomically.
- Rendering and UI are not modelled: meshes, materials, lighting, gizmos, the text overlay and FPS colouring (`display_stats`). They carry no state the core reads.
- `ParticleBundle::from_world_xy` is not modelled; the core never calls it.
- Quaternion and transform maths are not modelled (`Quat::from_euler`, `transform.right/up/down/back`). They are foreign library calls. A rotation is its Euler pair, and its basis vectors come from the opaque `axes` parameter.
- `exp`, `tan` and `powf` are parameters, not definitions. `exp` and `2^x` are only known to be positive. In f32 a large negative exponent underflows to 0, so a positive radius is a real-number result only.
- f32/f64 rounding and the casts between them are not modelled, because everything is over `real`. So `0.2`, `SIM_DT`, `CAMERA_FOV` and the orbit sensitivity are the exact decimal values.
- `rand::thread_rng` is not called. The 20 jitter offsets are a parameter whose components lie in [0, 1).
- Stepper.AdjustSteps: the step count is a `nat`, so the model does not include the u8 overflow of `steps += 1` at 255 (a panic in debug builds, a wrap to 0 in release builds).
- Particles.SpawnCluster: the counter is an unbounded `int`, so the model does not include the overflow of the i32 `ParticleCount`.
- Only one camera is modelled per call. The source loops over every camera and treats each one independently, and the app spawns exactly one.
- `Spawning.MouseClickSystem` runs only while the left mouse button is held. That condition belongs to the caller (`run_if`). The window is assumed to exist (`q_window.single()`) and to have a positive size.

=== FILE: chaos_equations.dfy ===
/** The attractor library of src/chaos_equations.rs: pure forward-Euler step
    functions `(Coord, dt) -> Coord`, and the closed set of them the
    simulation can select between. */
module ChaosEquations {
  import opened Vectors

  /** A position in simulation space. */
  type Coord = Vec3

  const ORIGIN: Coord := ZERO3

  /** The drift rate of `basic_equation` on every axis. */
  const BASIC_RATE: real := 1.0

  /** The fixed Lorenz parameters. */
  const RHO: real := 28.0
  const SIGMA: real := 10.0
  const BETA: real := 8.0 / 3.0

  /** `basic_equation`: every axis drifts by `1.0 * dt`. */
  function BasicEquation(at: Coord, dt: real): (r: Coord)
    ensures r.Sub(at) == Vec3(dt, dt, dt)
    ensures dt == 0.0 <==> r == at
  {
    Vec3(at.x + BASIC_RATE * dt, at.y + BASIC_RATE * dt, at.z + BASIC_RATE * dt)
  }

  /** `lorenz_attractor_equation`, as written: the y-update subtracts `z`. */
  function LorenzAttractorEquation(at: Coord, dt: real): (r: Coord)
    ensures dt == 0.0 ==> r == at
    ensures at == ORIGIN ==> r == ORIGIN
  {
    Vec3(at.x + (SIGMA * (at.y - at.x)) * dt,
         at.y + (at.x * (RHO - at.z) - at.z) * dt,
         at.z + (at.x * at.y - BETA * at.z) * dt)
  }

  /** The `ChaosEq` function type, as a closed set of variants. */
  datatype ChaosEq = Basic | Lorenz

  /** Calls the selected equation. */
  function Step(eq: ChaosEq, at: Coord, dt: real): Coord {
    match eq
    case Basic => BasicEquation(at, dt)
    case Lorenz => LorenzAttractorEquation(at, dt)
  }

  /** The right-hand side `F` of the ODE each equation integrates; it does
      not depend on the step size. */
  function Field(eq: ChaosEq, p: Coord): Coord {
    match eq
    case Basic => Vec3(BASIC_RATE, BASIC_RATE, BASIC_RATE)
    case Lorenz => Vec3(SIGMA * (p.y - p.x), p.x * (RHO - p.z) - p.z, p.x * p.y - BETA * p.z)
  }

  /** Both equations are forward-Euler steps of their field. */
  lemma StepIsForwardEuler(eq: ChaosEq, p: Coord, dt: real)
    ensures Step(eq, p, dt) == p.Add(Field(eq, p).Scale(dt))
  {
  }

  /** A step of size zero is the identity, for every equation. */
  lemma ZeroStepIsIdentity(eq: ChaosEq, p: Coord)
    ensures Step(eq, p, 0.0) == p
  {
  }

  /** For a non-zero step, `p` is left in place exactly when the field
      vanishes at `p`. */
  lemma StepFixedIffFieldVanishes(eq: ChaosEq, p: Coord, dt: real)
    requires dt != 0.0
    ensures Step(eq, p, dt) == p <==> Field(eq, p) == ZERO3
  {
    StepIsForwardEuler(eq, p, dt);
    var f := Field(eq, p);
    if Step(eq, p, dt) == p {
      assert f.x * dt == 0.0 && f.y * dt == 0.0 && f.z * dt == 0.0;
    }
  }

  /** The basic equation has no fixed point for a non-zero step. */
  lemma BasicNeverFixed(p: Coord, dt: real)
    requires dt != 0.0
    ensures BasicEquation(p, dt) != p
  {
  }

  /** The Lorenz x-update reads only x and y. */
  lemma LorenzXReadsOnlyXY(p: Coord, q: Coord, dt: real)
    requires p.x == q.x && p.y == q.y
    ensures LorenzAttractorEquation(p, dt).x == LorenzAttractorEquation(q, dt).x
  {
    LorenzXIs(p, dt);
    LorenzXIs(q, dt);
    LorenzXArith(p.x, p.y, q.x, q.y, dt);
  }

  /** The x-update formula, on scalars. */
  lemma LorenzXArith(px: real, py: real, qx: real, qy: real, dt: real)
    requires px == qx && py == qy
    ensures px + (SIGMA * (py - px)) * dt == qx + (SIGMA * (qy - qx)) * dt
  {
  }

  /** The x-update of the Lorenz step, on its own. */
  lemma LorenzXIs(p: Coord, dt: real)
    ensures LorenzAttractorEquation(p, dt).x == p.x + (SIGMA * (p.y - p.x)) * dt
  {
  }

  /** The Lorenz y-increment does not depend on y (the source subtracts `z`
      where the textbook system subtracts `y`). */
  lemma LorenzYIncrementIgnoresY(p: Coord, q: Coord, dt: real)
    requires p.x == q.x && p.z == q.z
    ensures LorenzAttractorEquation(p, dt).y - p.y == LorenzAttractorEquation(q, dt).y - q.y
  {
  }

  /** A concrete point where the as-written y-update and the textbook one
      (`x(rho - z) - y`) part ways. */
  lemma LorenzYDiffersFromTextbook()
    ensures var p := Vec3(0.0, 1.0, 0.0);
            LorenzAttractorEquation(p, 1.0).y != p.y + (p.x * (RHO - p.z) - p.y) * 1.0
  {
  }
}

=== FILE: input.dfy ===
/** The keyboard state the core queries (`ButtonInput<KeyCode>`), reduced
    to the keys the core reads. */
module Input {

  datatype KeyCode =
    | KeyC | Digit1 | Digit2
    | NumpadAdd | NumpadSubtract
    | BracketRight | BracketLeft
    | ControlLeft | AltLeft | KeyZ | ShiftLeft

  /** Keys held now, and keys pressed during this frame. The two sets are
      independent: a key pressed and released within one frame is just
      pressed but no longer held. */
  datatype ButtonInput = ButtonInput(pressed: set<KeyCode>, justPressed: set<KeyCode>) {

    predicate Pressed(k: KeyCode) {
      k in pressed
    }

    predicate JustPressed(k: KeyCode) {
      k in justPressed
    }
  }
}

=== FILE: pan_orbit.dfy ===
/** The pan-orbit camera controller of src/main.rs (`PanOrbitState`,
    `PanOrbitSettings`, `pan_orbit_camera`): input deltas are accumulated
    into a spherical camera state (center, radius, yaw, pitch), from which
    the camera transform is recomputed when something changed.

    `exp` is an opaque positive function and the basis vectors of a rotation
    come from the opaque `axes`; the angle constants are the exact values
    of the f32 constants the source uses. */
module PanOrbit {
  import opened Vectors
  import opened Transforms
  import opened Input

  /** `std::f32::consts::PI`, `TAU` and `FRAC_PI_2`, exactly. */
  const PI: real := 3.1415927410125732421875
  const TAU: real := 6.283185482025146484375
  const FRAC_PI_2: real := 1.57079637050628662109375

  datatype PanOrbitState = PanOrbitState(center: Vec3, radius: real, upsideDown: bool, pitch: real, yaw: real)

  /** `PanOrbitState::default()`. */
  const DEFAULT_STATE: PanOrbitState := PanOrbitState(ZERO3, 1.0, false, 0.0, 0.0)

  /** The state `spawn_camera` gives the one camera. */
  const SPAWNED_STATE: PanOrbitState := DEFAULT_STATE.(radius := 400.0)

  datatype PanOrbitAction = Pan | Orbit | Zoom

  datatype PanOrbitSettings = PanOrbitSettings(
    panSensitivity: real,
    orbitSensitivity: real,
    zoomSensitivity: real,
    panKey: Option<KeyCode>,
    orbitKey: Option<KeyCode>,
    zoomKey: Option<KeyCode>,
    scrollAction: Option<PanOrbitAction>,
    scrollLineSensitivity: real,
    scrollPixelSensitivity: real)

  /** `PanOrbitSettings::default()`; 0.1 degree in radians for orbiting. */
  const DEFAULT_SETTINGS: PanOrbitSettings :=
    PanOrbitSettings(0.001, 0.1 * PI / 180.0, 0.01,
                     Some(ControlLeft), Some(AltLeft), Some(KeyZ), Some(Zoom),
                     16.0, 1.0)

  datatype ScrollUnit = Line | Pixel

  /** One `MouseWheel` event. */
  datatype MouseWheel = MouseWheel(unit: ScrollUnit, x: real, y: real)

  /** Sum of the mouse-motion deltas of one frame. */
  function SumMotion(events: seq<Vec2>): Vec2
    decreases |events|
  {
    if |events| == 0 then ZERO2
    else SumMotion(events[..|events| - 1]).Add(events[|events| - 1])
  }

  /** The frame's total motion with its y axis flipped to point up. */
  function TotalMotion(events: seq<Vec2>): Vec2 {
    var s := SumMotion(events);
    Vec2(s.x, -s.y)
  }

  /** Motion accumulates event by event. */
  lemma {:induction false} TotalMotionAppend(events: seq<Vec2>, d: Vec2)
    ensures TotalMotion(events + [d]) == TotalMotion(events).Add(Vec2(d.x, -d.y))
  {
    assert (events + [d])[..|events|] == events;
  }

  /** Line-stepped and pixel-precise scroll, summed separately, y flipped. */
  datatype ScrollTotals = ScrollTotals(lines: Vec2, pixels: Vec2)

  function AccumulateScroll(events: seq<MouseWheel>): (r: ScrollTotals)
    ensures (forall i :: 0 <= i < |events| ==> events[i].unit == Pixel) ==> r.lines == ZERO2
    ensures (forall i :: 0 <= i < |events| ==> events[i].unit == Line) ==> r.pixels == ZERO2
    decreases |events|
  {
    if |events| == 0 then ScrollTotals(ZERO2, ZERO2)
    else
      var prev := AccumulateScroll(events[..|events| - 1]);
      var ev := events[|events| - 1];
      match ev.unit
      case Line => prev.(lines := Vec2(prev.lines.x + ev.x, prev.lines.y - ev.y))
      case Pixel => prev.(pixels := Vec2(prev.pixels.x + ev.x, prev.pixels.y - ev.y))
  }

  /** Each scroll event adds its x and its negated y to the total of its
      own unit and leaves the other total alone. */
  lemma {:induction false} AccumulateScrollAppend(events: seq<MouseWheel>, e: MouseWheel)
    ensures var prev := AccumulateScroll(events);
            var r := AccumulateScroll(events + [e]);
            (e.unit == Line ==> r == ScrollTotals(prev.lines.Add(Vec2(e.x, -e.y)), prev.pixels))
            && (e.unit == Pixel ==> r == ScrollTotals(prev.lines, prev.pixels.Add(Vec2(e.x, -e.y))))
  {
    assert (events + [e])[..|events|] == events;
  }

  /** The events of one unit, in their original order. */
  function OfUnit(events: seq<MouseWheel>, u: ScrollUnit): (r: seq<MouseWheel>)
    ensures |r| <= |events|
    ensures forall i :: 0 <= i < |r| ==> r[i].unit == u
    ensures (forall i :: 0 <= i < |events| ==> events[i].unit == u) ==> r == events
    decreases |events|
  {
    if |events| == 0 then []
    else
      var rest := OfUnit(events[..|events| - 1], u);
      var e := events[|events| - 1];
      assert events == events[..|events| - 1] + [e];
      if e.unit == u then rest + [e] else rest
  }

  /** Filtering an extended stream extends the filtered stream by the new
      event exactly when it has the unit filtered for. */
  lemma OfUnitSnoc(events: seq<MouseWheel>, e: MouseWheel, u: ScrollUnit)
    ensures OfUnit(events + [e], u) == if e.unit == u then OfUnit(events, u) + [e] else OfUnit(events, u)
  {
    assert (events + [e])[..|events|] == events;
  }

  /** Pixel events never reach the line total and line events never reach
      the pixel total, however the two are interleaved. */
  lemma {:induction false} ScrollUnitsSummedApart(events: seq<MouseWheel>)
    ensures AccumulateScroll(events).lines == AccumulateScroll(OfUnit(events, Line)).lines
    ensures AccumulateScroll(events).pixels == AccumulateScroll(OfUnit(events, Pixel)).pixels
    decreases |events|
  {
    if |events| > 0 {
      var init := events[..|events| - 1];
      var e := events[|events| - 1];
      assert events == init + [e];
      ScrollUnitsSummedApart(init);
      AccumulateScrollAppend(init, e);
      OfUnitSnoc(init, e, Line);
      OfUnitSnoc(init, e, Pixel);
      if e.unit == Line {
        AccumulateScrollAppend(OfUnit(init, Line), e);
      } else {
        AccumulateScrollAppend(OfUnit(init, Pixel), e);
      }
    }
  }

  /** The raw deltas of scroll events. */
  function WheelDeltas(events: seq<MouseWheel>): (r: seq<Vec2>)
    ensures |r| == |events|
    ensures forall i :: 0 <= i < |events| ==> r[i] == Vec2(events[i].x, events[i].y)
  {
    seq(|events|, i requires 0 <= i < |events| => Vec2(events[i].x, events[i].y))
  }

  /** Each unit's total is the sum of that unit's deltas with y flipped:
      the same rule as mouse motion, so scrolling up yields a negative y. */
  lemma {:induction false} ScrollTotalIsFlippedSum(events: seq<MouseWheel>, u: ScrollUnit)
    ensures var r := AccumulateScroll(events);
            (if u == Line then r.lines else r.pixels) == TotalMotion(WheelDeltas(OfUnit(events, u)))
    decreases |events|
  {
    if |events| == 0 {
      assert WheelDeltas(OfUnit(events, u)) == [];
    } else {
      var init := events[..|events| - 1];
      var e := events[|events| - 1];
      assert events == init + [e];
      ScrollTotalIsFlippedSum(init, u);
      FlippedSumSnoc(init, e, u);
    }
  }

  /** The step of `ScrollTotalIsFlippedSum`: one more event extends both
      sides alike. */
  lemma FlippedSumSnoc(init: seq<MouseWheel>, e: MouseWheel, u: ScrollUnit)
    requires var r := AccumulateScroll(init);
             (if u == Line then r.lines else r.pixels) == TotalMotion(WheelDeltas(OfUnit(init, u)))
    ensures var r := AccumulateScroll(init + [e]);
            (if u == Line then r.lines else r.pixels) == TotalMotion(WheelDeltas(OfUnit(init + [e], u)))
  {
    AccumulateScrollAppend(init, e);
    OfUnitSnoc(init, e, u);
    var ds := WheelDeltas(OfUnit(init, u));
    if e.unit == u {
      assert WheelDeltas(OfUnit(init, u) + [e]) == ds + [Vec2(e.x, e.y)];
      TotalMotionAppend(ds, Vec2(e.x, e.y));
    }
  }

  /** `key.map(|key| kbd.pressed(key)).unwrap_or(false)`. */
  predicate KeyHeld(key: Option<KeyCode>, kbd: ButtonInput) {
    key.Some? && kbd.Pressed(key.value)
  }

  /** `key.map(|key| kbd.just_pressed(key)).unwrap_or(false)`. */
  predicate KeyJustPressed(key: Option<KeyCode>, kbd: ButtonInput) {
    key.Some? && kbd.JustPressed(key.value)
  }

  /** The delta one maneuver receives this frame: minus the motion times
      its sensitivity when its key is held, and minus the scaled scroll
      when the scroll wheel drives it. */
  function ManeuverDelta(held: bool, scrollBound: bool, sensitivity: real,
                         motion: Vec2, scroll: ScrollTotals, settings: PanOrbitSettings): (r: Vec2)
    ensures !held && !scrollBound ==> r == ZERO2
    ensures sensitivity == 0.0 ==> r == ZERO2
    ensures !scrollBound && motion == ZERO2 ==> r == ZERO2
    ensures !held && scroll == ScrollTotals(ZERO2, ZERO2) ==> r == ZERO2
    ensures motion == ZERO2 && scroll == ScrollTotals(ZERO2, ZERO2) ==> r == ZERO2
  {
    var fromMotion := if held then ZERO2.Sub(motion.Scale(sensitivity)) else ZERO2;
    if scrollBound then
      fromMotion
        .Sub(scroll.lines.Scale(settings.scrollLineSensitivity).Scale(sensitivity))
        .Sub(scroll.pixels.Scale(settings.scrollPixelSensitivity).Scale(sensitivity))
    else fromMotion
  }

  datatype Deltas = Deltas(pan: Vec2, orbit: Vec2, zoom: Vec2)

  /** The pan, orbit and zoom deltas of one frame. */
  function FrameDeltas(settings: PanOrbitSettings, kbd: ButtonInput, motion: Vec2, scroll: ScrollTotals): Deltas {
    Deltas(
      ManeuverDelta(KeyHeld(settings.panKey, kbd), settings.scrollAction == Some(Pan),
                    settings.panSensitivity, motion, scroll, settings),
      ManeuverDelta(KeyHeld(settings.orbitKey, kbd), settings.scrollAction == Some(Orbit),
                    settings.orbitSensitivity, motion, scroll, settings),
      ManeuverDelta(KeyHeld(settings.zoomKey, kbd), settings.scrollAction == Some(Zoom),
                    settings.zoomSensitivity, motion, scroll, settings))
  }

  /** Only the maneuver the scroll wheel is bound to sees scroll input;
      with no key held, the others get a zero delta. */
  lemma ScrollDrivesOnlyItsAction(settings: PanOrbitSettings, kbd: ButtonInput, motion: Vec2, scroll: ScrollTotals)
    requires !KeyHeld(settings.panKey, kbd) && !KeyHeld(settings.orbitKey, kbd) && !KeyHeld(settings.zoomKey, kbd)
    ensures settings.scrollAction != Some(Pan) ==> FrameDeltas(settings, kbd, motion, scroll).pan == ZERO2
    ensures settings.scrollAction != Some(Orbit) ==> FrameDeltas(settings, kbd, motion, scroll).orbit == ZERO2
    ensures settings.scrollAction != Some(Zoom) ==> FrameDeltas(settings, kbd, motion, scroll).zoom == ZERO2
  {
  }

  /** On the frame the orbit key goes down, record whether the camera is
      upside down (pitch outside [-PI/2, PI/2]); otherwise keep the flag. */
  function SnapshotUpsideDown(s: PanOrbitState, settings: PanOrbitSettings, kbd: ButtonInput): (r: bool)
    ensures KeyJustPressed(settings.orbitKey, kbd) ==> (r <==> FRAC_PI_2 < Abs(s.pitch))
    ensures !KeyJustPressed(settings.orbitKey, kbd) ==> r == s.upsideDown
  {
    if KeyJustPressed(settings.orbitKey, kbd) then s.pitch < -FRAC_PI_2 || s.pitch > FRAC_PI_2
    else s.upsideDown
  }

  /** Upside down, the horizontal orbit direction is reversed. */
  function OrientOrbit(orbit: Vec2, upsideDown: bool): (r: Vec2)
    ensures r.y == orbit.y && Abs(r.x) == Abs(orbit.x)
    ensures r == ZERO2 <==> orbit == ZERO2
    ensures r.x == orbit.x <==> !upsideDown || orbit.x == 0.0
  {
    if upsideDown then Vec2(-orbit.x, orbit.y) else orbit
  }

  /** Zoom multiplies the radius by `exp(-zoom.y)` when the zoom delta is
      non-zero. */
  function ApplyZoom(radius: real, zoom: Vec2, exp: real -> PosReal): (r: real)
    ensures radius > 0.0 ==> r > 0.0
    ensures zoom == ZERO2 ==> r == radius
    ensures radius != 0.0 ==> r / radius > 0.0
  {
    if zoom != ZERO2 then radius * exp(-zoom.y) else radius
  }

  /** The single-pass wrap applied to yaw and to pitch. */
  function WrapAngle(a: real): (r: real)
    ensures -PI - TAU <= a <= PI + TAU ==> -PI <= r <= PI
    ensures -PI <= a <= PI ==> r == a
    ensures r == a || r == a - TAU || r == a + TAU
  {
    var a' := if a > PI then a - TAU else a;
    if a' < -PI then a' + TAU else a'
  }

  /** The wrap is a single pass: an angle beyond three half-turns stays out
      of range. */
  lemma WrapIsSinglePass()
    ensures WrapAngle(4.0 * PI) > PI
  {
  }

  datatype Angles = Angles(yaw: real, pitch: real)

  /** Orbit adds the x delta to yaw and subtracts the y delta from pitch,
      then wraps both; a zero delta changes nothing. */
  function ApplyOrbit(yaw: real, pitch: real, orbit: Vec2): (r: Angles)
    ensures orbit == ZERO2 ==> r == Angles(yaw, pitch)
    ensures -PI <= yaw <= PI && -PI <= pitch <= PI && Abs(orbit.x) <= TAU && Abs(orbit.y) <= TAU
            ==> -PI <= r.yaw <= PI && -PI <= r.pitch <= PI
    ensures r.yaw == yaw + orbit.x || r.yaw == yaw + orbit.x - TAU || r.yaw == yaw + orbit.x + TAU
    ensures r.pitch == pitch - orbit.y || r.pitch == pitch - orbit.y - TAU || r.pitch == pitch - orbit.y + TAU
  {
    if orbit != ZERO2 then Angles(WrapAngle(yaw + orbit.x), WrapAngle(pitch - orbit.y))
    else Angles(yaw, pitch)
  }

  /** Pan moves the center along the current right and up directions,
      scaled by the (already zoomed) radius. */
  function ApplyPan(center: Vec3, radius: real, basis: Basis, pan: Vec2): (r: Vec3)
    ensures pan == ZERO2 ==> r == center
    ensures radius == 0.0 ==> r == center
  {
    if pan != ZERO2 then
      center.Add(basis.right.Scale(pan.x).Scale(radius)).Add(basis.up.Scale(pan.y).Scale(radius))
    else center
  }

  /** Panning speed follows the zoom level: scaling the radius by `k`
      scales the displacement of the center by `k`. */
  lemma PanScalesWithRadius(center: Vec3, radius: real, k: real, basis: Basis, pan: Vec2)
    ensures ApplyPan(center, k * radius, basis, pan).Sub(center)
            == ApplyPan(center, radius, basis, pan).Sub(center).Scale(k)
  {
    PanDisplacement(center, k * radius, basis, pan);
    PanDisplacement(center, radius, basis, pan);
    if pan != ZERO2 {
      var a := basis.right.Scale(pan.x);
      var b := basis.up.Scale(pan.y);
      ScaleRegroup(a, radius, k);
      ScaleRegroup(b, radius, k);
      AddScale(a.Scale(radius), b.Scale(radius), k);
    }
  }

  /** The displacement of the center by a pan. */
  lemma PanDisplacement(center: Vec3, radius: real, basis: Basis, pan: Vec2)
    ensures ApplyPan(center, radius, basis, pan).Sub(center)
            == if pan == ZERO2 then ZERO3
               else basis.right.Scale(pan.x).Scale(radius).Add(basis.up.Scale(pan.y).Scale(radius))
  {
  }

  /** `v * (k * r) == (v * r) * k`. */
  lemma ScaleRegroup(v: Vec3, r: real, k: real)
    ensures v.Scale(k * r) == v.Scale(r).Scale(k)
  {
    RealRegroup(v.x, r, k);
    RealRegroup(v.y, r, k);
    RealRegroup(v.z, r, k);
  }

  lemma RealRegroup(a: real, r: real, k: real)
    ensures a * (k * r) == a * r * k
  {
  }

  /** Scaling distributes over addition. */
  lemma AddScale(a: Vec3, b: Vec3, k: real)
    ensures a.Add(b).Scale(k) == a.Scale(k).Add(b.Scale(k))
  {
  }

  /** Points the camera at `center` from `radius` away along the new
      rotation's back direction. */
  function LookAt(s: PanOrbitState, t: Transform, axes: Axes): (r: Transform)
    ensures r.rotation == Euler(s.yaw, s.pitch) && r.scale == t.scale
    ensures r.translation.Sub(s.center) == axes(r.rotation).back.Scale(s.radius)
  {
    var rotation := Euler(s.yaw, s.pitch);
    Transform(s.center.Add(axes(rotation).back.Scale(s.radius)), rotation, t.scale)
  }

  /** One camera after one frame, and whether its transform was recomputed. */
  datatype CameraUpdate = CameraUpdate(state: PanOrbitState, transform: Transform, recomputed: bool)

  /** `pan_orbit_camera` for one camera. `isAdded` is true on the frame the
      controller was added. */
  function PanOrbitCamera(settings: PanOrbitSettings, kbd: ButtonInput, motionEvents: seq<Vec2>,
                          scrollEvents: seq<MouseWheel>, s: PanOrbitState, t: Transform, isAdded: bool,
                          exp: real -> PosReal, axes: Axes): (r: CameraUpdate)
    ensures s.radius > 0.0 ==> r.state.radius > 0.0
    ensures var d := FrameDeltas(settings, kbd, TotalMotion(motionEvents), AccumulateScroll(scrollEvents));
            r.state.center == ApplyPan(s.center, r.state.radius, axes(t.rotation), d.pan)
    ensures var d := FrameDeltas(settings, kbd, TotalMotion(motionEvents), AccumulateScroll(scrollEvents));
            r.recomputed <==> d.pan != ZERO2 || d.orbit != ZERO2 || d.zoom != ZERO2 || isAdded
    ensures r.recomputed ==> r.transform == LookAt(r.state, t, axes)
    ensures !r.recomputed ==> r.transform == t
  {
    var d := FrameDeltas(settings, kbd, TotalMotion(motionEvents), AccumulateScroll(scrollEvents));
    var upsideDown := SnapshotUpsideDown(s, settings, kbd);
    var orbit := OrientOrbit(d.orbit, upsideDown);
    var radius := ApplyZoom(s.radius, d.zoom, exp);
    var angles := ApplyOrbit(s.yaw, s.pitch, orbit);
    var center := ApplyPan(s.center, radius, axes(t.rotation), d.pan);
    var any := d.zoom != ZERO2 || orbit != ZERO2 || d.pan != ZERO2;
    var s' := PanOrbitState(center, radius, upsideDown, angles.pitch, angles.yaw);
    if any || isAdded then CameraUpdate(s', LookAt(s', t, axes), true)
    else CameraUpdate(s', t, false)
  }

  /** With no maneuver key held and no scroll input, nothing moves and the
      transform is only recomputed on the camera's first frame. The
      upside-down flag is kept unless the orbit key was tapped this frame. */
  lemma CameraIdle(settings: PanOrbitSettings, kbd: ButtonInput, motionEvents: seq<Vec2>,
                   s: PanOrbitState, t: Transform, isAdded: bool, exp: real -> PosReal, axes: Axes)
    requires !KeyHeld(settings.panKey, kbd) && !KeyHeld(settings.orbitKey, kbd) && !KeyHeld(settings.zoomKey, kbd)
    ensures var r := PanOrbitCamera(settings, kbd, motionEvents, [], s, t, isAdded, exp, axes);
            r.state.center == s.center && r.state.radius == s.radius
            && r.state.yaw == s.yaw && r.state.pitch == s.pitch
            && r.recomputed == isAdded && (!isAdded ==> r.transform == t)
    ensures !KeyJustPressed(settings.orbitKey, kbd)
            ==> PanOrbitCamera(settings, kbd, motionEvents, [], s, t, isAdded, exp, axes).state == s
  {
    var scroll := AccumulateScroll([]);
    assert scroll == ScrollTotals(ZERO2, ZERO2);
  }

  /** An orbit key pressed and released within one frame is just pressed
      but not held: nothing moves, yet the upside-down flag is taken again. */
  lemma TappedOrbitKeyResnapshots(s: PanOrbitState, t: Transform, exp: real -> PosReal, axes: Axes)
    requires s.pitch > FRAC_PI_2 && !s.upsideDown
    ensures var kbd := ButtonInput({}, {AltLeft});
            var r := PanOrbitCamera(DEFAULT_SETTINGS, kbd, [], [], s, t, false, exp, axes);
            r.state.upsideDown && r.state.pitch == s.pitch && !r.recomputed
  {
    var kbd := ButtonInput({}, {AltLeft});
    var settings := DEFAULT_SETTINGS;
    assert settings.orbitKey == Some(AltLeft);
    assert !KeyHeld(settings.panKey, kbd) && !KeyHeld(settings.orbitKey, kbd) && !KeyHeld(settings.zoomKey, kbd);
    assert KeyJustPressed(settings.orbitKey, kbd);
    assert SnapshotUpsideDown(s, settings, kbd);
    CameraIdle(settings, kbd, [], s, t, false, exp, axes);
  }

  /** The angles the controller keeps in [-PI, PI]. */
  predicate AnglesInRange(s: PanOrbitState) {
    -PI <= s.yaw <= PI && -PI <= s.pitch <= PI
  }

  /** One frame of input. */
  datatype Frame = Frame(kbd: ButtonInput, motion: seq<Vec2>, scroll: seq<MouseWheel>)

  function OrbitDelta(settings: PanOrbitSettings, f: Frame): Vec2 {
    FrameDeltas(settings, f.kbd, TotalMotion(f.motion), AccumulateScroll(f.scroll)).orbit
  }

  /** A frame whose orbit delta is at most a full turn on each axis. */
  predicate BoundedOrbit(settings: PanOrbitSettings, f: Frame) {
    Abs(OrbitDelta(settings, f).x) <= TAU && Abs(OrbitDelta(settings, f).y) <= TAU
  }

  /** One frame keeps the angles in range when its orbit delta is bounded. */
  lemma FrameKeepsAnglesInRange(settings: PanOrbitSettings, f: Frame, s: PanOrbitState, t: Transform,
                                isAdded: bool, exp: real -> PosReal, axes: Axes)
    requires AnglesInRange(s) && BoundedOrbit(settings, f)
    ensures AnglesInRange(PanOrbitCamera(settings, f.kbd, f.motion, f.scroll, s, t, isAdded, exp, axes).state)
  {
    var d := FrameDeltas(settings, f.kbd, TotalMotion(f.motion), AccumulateScroll(f.scroll));
    var orbit := OrientOrbit(d.orbit, SnapshotUpsideDown(s, settings, f.kbd));
    assert Abs(orbit.x) <= TAU && Abs(orbit.y) <= TAU;
  }

  /** The camera after a run of frames; only the first frame sees the
      controller as freshly added. */
  function RunCamera(settings: PanOrbitSettings, frames: seq<Frame>, s: PanOrbitState, t: Transform,
                     isAdded: bool, exp: real -> PosReal, axes: Axes): CameraUpdate
    decreases |frames|
  {
    if |frames| == 0 then CameraUpdate(s, t, false)
    else
      var r := PanOrbitCamera(settings, frames[0].kbd, frames[0].motion, frames[0].scroll, s, t, isAdded, exp, axes);
      RunCamera(settings, frames[1..], r.state, r.transform, false, exp, axes)
  }

  /** The radius stays positive after any finite sequence of frames,
      whatever the zoom input. */
  lemma {:induction false} RunKeepsRadiusPositive(settings: PanOrbitSettings, frames: seq<Frame>, s: PanOrbitState,
                                                  t: Transform, isAdded: bool, exp: real -> PosReal, axes: Axes)
    requires s.radius > 0.0
    ensures RunCamera(settings, frames, s, t, isAdded, exp, axes).state.radius > 0.0
    decreases |frames|
  {
    if |frames| > 0 {
      var r := PanOrbitCamera(settings, frames[0].kbd, frames[0].motion, frames[0].scroll, s, t, isAdded, exp, axes);
      RunKeepsRadiusPositive(settings, frames[1..], r.state, r.transform, false, exp, axes);
    }
  }

  /** Yaw and pitch stay in [-PI, PI] over any run of frames whose orbit
      deltas are each at most a full turn. */
  lemma {:induction false} RunKeepsAnglesInRange(settings: PanOrbitSettings, frames: seq<Frame>, s: PanOrbitState,
                                                 t: Transform, isAdded: bool, exp: real -> PosReal, axes: Axes)
    requires AnglesInRange(s)
    requires forall i :: 0 <= i < |frames| ==> BoundedOrbit(settings, frames[i])
    ensures AnglesInRange(RunCamera(settings, frames, s, t, isAdded, exp, axes).state)
    decreases |frames|
  {
    if |frames| > 0 {
      FrameKeepsAnglesInRange(settings, frames[0], s, t, isAdded, exp, axes);
      var r := PanOrbitCamera(settings, frames[0].kbd, frames[0].motion, frames[0].scroll, s, t, isAdded, exp, axes);
      RunKeepsAnglesInRange(settings, frames[1..], r.state, r.transform, false, exp, axes);
    }
  }

  /** With the default bindings and none of their keys held, the scroll
      wheel drives only the zoom: pan and orbit get zero deltas. */
  lemma DefaultScrollOnlyZooms(kbd: ButtonInput, motion: Vec2, scroll: ScrollTotals)
    requires !kbd.Pressed(ControlLeft) && !kbd.Pressed(AltLeft) && !kbd.Pressed(KeyZ)
    ensures FrameDeltas(DEFAULT_SETTINGS, kbd, motion, scroll).pan == ZERO2
    ensures FrameDeltas(DEFAULT_SETTINGS, kbd, motion, scroll).orbit == ZERO2
  {
    ScrollDrivesOnlyItsAction(DEFAULT_SETTINGS, kbd, motion, scroll);
  }

  /** The camera as spawned starts where the run lemmas apply: a positive
      radius and angles in [-PI, PI]. Its radius stays positive over any run
      of frames. */
  lemma SpawnedCameraStaysValid(settings: PanOrbitSettings, frames: seq<Frame>, t: Transform,
                                exp: real -> PosReal, axes: Axes)
    ensures SPAWNED_STATE.radius > 0.0 && AnglesInRange(SPAWNED_STATE)
    ensures RunCamera(settings, frames, SPAWNED_STATE, t, true, exp, axes).state.radius > 0.0
  {
    RunKeepsRadiusPositive(settings, frames, SPAWNED_STATE, t, true, exp, axes);
  }
}

=== FILE: particles.dfy ===
/** The particle store of src/main.rs: the live particles (in simulation
    space) and the `ParticleCount` counter that the spawn and despawn
    systems keep beside them. */
module Particles {
  import opened Vectors
  import opened ChaosEquations

  /** The particle set as a sequence, and the separately kept counter. */
  datatype Store = Store(particles: seq<Coord>, count: int)

  /** `ParticleCount` starts at 0 with no particles. */
  const EMPTY_STORE: Store := Store([], 0)

  /** The counter tracks the particle set. */
  predicate Consistent(s: Store) {
    s.count == |s.particles|
  }

  /** Particles created by one cluster spawn. */
  const CLUSTER_SIZE: nat := 20

  /** A jitter offset as drawn by `rng.gen::<f64>().fract()`: each
      component in [0, 1). */
  predicate ValidJitter(j: Coord) {
    0.0 <= j.x < 1.0 && 0.0 <= j.y < 1.0 && 0.0 <= j.z < 1.0
  }

  /** `p` lies in the half-open unit box whose low corner is `base`. */
  predicate InUnitBox(base: Coord, p: Coord) {
    && base.x <= p.x < base.x + 1.0
    && base.y <= p.y < base.y + 1.0
    && base.z <= p.z < base.z + 1.0
  }

  /** Single spawn: one particle at `at`, count up by one. */
  function SpawnOne(s: Store, at: Coord): (r: Store)
    ensures r.count == s.count + 1
    ensures |r.particles| == |s.particles| + 1
    ensures r.particles[..|s.particles|] == s.particles && r.particles[|s.particles|] == at
    ensures Consistent(s) ==> Consistent(r)
  {
    Store(s.particles + [at], s.count + 1)
  }

  /** Cluster spawn: one particle at `jitter[i] + base` per jitter offset,
      count up by 20. */
  function SpawnCluster(s: Store, base: Coord, jitter: seq<Coord>): (r: Store)
    requires |jitter| == CLUSTER_SIZE
    requires forall i :: 0 <= i < |jitter| ==> ValidJitter(jitter[i])
    ensures r.count == s.count + 20
    ensures |r.particles| == |s.particles| + 20
    ensures r.particles[..|s.particles|] == s.particles
    ensures forall i :: 0 <= i < 20 ==> r.particles[|s.particles| + i].Sub(base) == jitter[i]
    ensures forall i :: |s.particles| <= i < |r.particles| ==> InUnitBox(base, r.particles[i])
    ensures Consistent(s) ==> Consistent(r)
  {
    var added := seq(|jitter|, i requires 0 <= i < |jitter| => jitter[i].Add(base));
    assert forall i :: 0 <= i < |added| ==> ValidJitter(jitter[i]) && InUnitBox(base, added[i]);
    Store(s.particles + added, s.count + CLUSTER_SIZE)
  }

  /** `despawn_all_particles`: no particles, count 0. */
  function DespawnAll(s: Store): (r: Store)
    ensures r.count == 0 && |r.particles| == 0
    ensures Consistent(r)
  {
    EMPTY_STORE
  }

  /** One change made to the store by the spawn or despawn systems. */
  datatype StoreOp = SpawnOneOp(at: Coord) | SpawnClusterOp(base: Coord, jitter: seq<Coord>) | DespawnAllOp

  predicate ValidOp(op: StoreOp) {
    op.SpawnClusterOp? ==>
      |op.jitter| == CLUSTER_SIZE && forall i :: 0 <= i < |op.jitter| ==> ValidJitter(op.jitter[i])
  }

  function ApplyOp(s: Store, op: StoreOp): Store
    requires ValidOp(op)
  {
    match op
    case SpawnOneOp(at) => SpawnOne(s, at)
    case SpawnClusterOp(base, jitter) => SpawnCluster(s, base, jitter)
    case DespawnAllOp => DespawnAll(s)
  }

  function ApplyOps(s: Store, ops: seq<StoreOp>): Store
    requires forall i :: 0 <= i < |ops| ==> ValidOp(ops[i])
    decreases |ops|
  {
    if |ops| == 0 then s else ApplyOps(ApplyOp(s, ops[0]), ops[1..])
  }

  /** The counter invariant holds after any finite sequence of operations. */
  lemma {:induction false} OpsKeepConsistent(s: Store, ops: seq<StoreOp>)
    requires Consistent(s)
    requires forall i :: 0 <= i < |ops| ==> ValidOp(ops[i])
    ensures Consistent(ApplyOps(s, ops))
    decreases |ops|
  {
    if |ops| > 0 {
      OpsKeepConsistent(ApplyOp(s, ops[0]), ops[1..]);
    }
  }

  /** Without a despawn, particles are only ever appended: the earlier ones
      stay where they were. */
  lemma {:induction false} SpawnsOnlyAppend(s: Store, ops: seq<StoreOp>)
    requires forall i :: 0 <= i < |ops| ==> ValidOp(ops[i]) && !ops[i].DespawnAllOp?
    ensures |ApplyOps(s, ops).particles| >= |s.particles|
    ensures ApplyOps(s, ops).particles[..|s.particles|] == s.particles
    decreases |ops|
  {
    if |ops| > 0 {
      var s' := ApplyOp(s, ops[0]);
      SpawnsOnlyAppend(s', ops[1..]);
      assert s'.particles[..|s.particles|] == s.particles;
    }
  }
}

=== FILE: scaler.dfy ===
/** The coordinate scaler of src/main.rs: simulation space is display
    space shrunk by the fixed factor `VIRT_ZOOM`. The f32/f64 casts of the
    source are exact over `real`. */
module Scaler {
  import opened Vectors
  import opened Transforms
  import opened ChaosEquations

  const VIRT_ZOOM: real := 10.0

  /** `world_to_virt_coord`. */
  function WorldToVirtCoord(x: real, y: real, z: real): (c: Coord)
    ensures c.Scale(VIRT_ZOOM) == Vec3(x, y, z)
  {
    Vec3(x / VIRT_ZOOM, y / VIRT_ZOOM, z / VIRT_ZOOM)
  }

  /** `_world_to_virt`: the simulation position of a display transform. */
  function WorldToVirt(t: Transform): (c: Coord)
    ensures c.Scale(VIRT_ZOOM) == t.translation
  {
    WorldToVirtCoord(t.translation.x, t.translation.y, t.translation.z)
  }

  /** `virt_to_world`: a fresh transform placed at the display position. */
  function VirtToWorld(c: Coord): (t: Transform)
    ensures t.translation.Div(VIRT_ZOOM) == c
    ensures t.rotation == IDENTITY && t.scale == UNIT_SCALE
  {
    FromXyz(c.x * VIRT_ZOOM, c.y * VIRT_ZOOM, c.z * VIRT_ZOOM)
  }

  /** `virt_to_world_mut`: moves an existing transform, keeping its
      rotation and scale. */
  function VirtToWorldMut(c: Coord, t: Transform): (r: Transform)
    ensures r.translation.Div(VIRT_ZOOM) == c
    ensures r.rotation == t.rotation && r.scale == t.scale
  {
    t.(translation := Vec3(c.x * VIRT_ZOOM, c.y * VIRT_ZOOM, c.z * VIRT_ZOOM))
  }

  /** Simulation -> display -> simulation is the identity. */
  lemma VirtRoundTrip(c: Coord)
    ensures WorldToVirt(VirtToWorld(c)) == c
  {
  }

  /** Display -> simulation -> display is the identity on positions. */
  lemma WorldRoundTrip(x: real, y: real, z: real)
    ensures VirtToWorld(WorldToVirtCoord(x, y, z)).translation == Vec3(x, y, z)
  {
  }

  /** Moving a fresh transform in place gives the same transform as
      building one. */
  lemma MutAgreesWithFresh(c: Coord, t: Transform)
    requires t.rotation == IDENTITY && t.scale == UNIT_SCALE
    ensures VirtToWorldMut(c, t) == VirtToWorld(c)
  {
  }

  /** `transform_particle_system`: every particle's transform follows its
      simulation position. */
  function TransformParticles(ps: seq<Coord>, ts: seq<Transform>): (r: seq<Transform>)
    requires |ps| == |ts|
    ensures |r| == |ps|
    ensures forall i :: 0 <= i < |r| ==> WorldToVirt(r[i]) == ps[i]
    ensures forall i :: 0 <= i < |r| ==> r[i].rotation == ts[i].rotation && r[i].scale == ts[i].scale
  {
    seq(|ps|, i requires 0 <= i < |ps| => VirtToWorldMut(ps[i], ts[i]))
  }
}

=== FILE: spawning.dfy ===
/** The spawn arithmetic of `mouse_click_system` in src/main.rs: the cursor
    is mapped to normalised device coordinates, then to a point on the
    plane through the orbit center facing the camera, then into simulation
    space, where one particle or a jittered cluster of 20 is created. */
module Spawning {
  import opened Vectors
  import opened Transforms
  import opened ChaosEquations
  import opened Scaler
  import opened Particles
  import opened PanOrbit
  import opened Input

  /** The camera's vertical field of view, in radians. */
  const CAMERA_FOV: real := 1.2

  /** The window size and the cursor position, when the cursor is inside. */
  datatype Window = Window(width: real, height: real, cursor: Option<Vec2>)

  /** The window sizes a real window has. */
  predicate ValidWindow(w: Window) {
    w.width > 0.0 && w.height > 0.0
  }

  /** The cursor in normalised device coordinates: 0 at the window centre,
      -1 and 1 at the edges. */
  function Ndc(cursor: Vec2, width: real, height: real): (r: Vec2)
    requires width > 0.0 && height > 0.0
    ensures cursor == Vec2(width / 2.0, height / 2.0) ==> r == ZERO2
    ensures 0.0 <= cursor.x <= width ==> -1.0 <= r.x <= 1.0
    ensures 0.0 <= cursor.y <= height ==> -1.0 <= r.y <= 1.0
    ensures (r.x + 1.0) * (width / 2.0) == cursor.x && (r.y + 1.0) * (height / 2.0) == cursor.y
  {
    var halfWidth := width / 2.0;
    var halfHeight := height / 2.0;
    NdcAxisBounds(cursor.x, halfWidth);
    NdcAxisBounds(cursor.y, halfHeight);
    Vec2(cursor.x / halfWidth - 1.0, cursor.y / halfHeight - 1.0)
  }

  /** One axis of the NDC mapping sends [0, 2 * half] onto [-1, 1]. */
  lemma NdcAxisBounds(c: real, half: real)
    requires half > 0.0
    ensures 0.0 <= c <= 2.0 * half ==> -1.0 <= c / half - 1.0 <= 1.0
  {
    assert c / half * half == c;
  }

  /** The display-space spawn point: the orbit center moved along the
      camera's down and right axes by the cursor's offset, scaled by the
      radius and `tan(CAMERA_FOV / 2)`; `tanHalfFov` is that opaque value.
      The axes are those of the camera transform `t`, the one the
      controller writes. */
  function SpawnAt(s: PanOrbitState, t: Transform, axes: Axes, cursor: Vec2, width: real, height: real,
                   tanHalfFov: real): (r: Vec3)
    requires width > 0.0 && height > 0.0
    ensures cursor == Vec2(width / 2.0, height / 2.0) ==> r == s.center
  {
    var halfWidth := width / 2.0;
    var halfHeight := height / 2.0;
    var p := Ndc(cursor, width, height);
    var dx := s.radius * tanHalfFov * p.x * (halfWidth / halfHeight);
    var dy := s.radius * tanHalfFov * p.y;
    var basis := axes(t.rotation);
    s.center.Add(basis.Down().Scale(dy)).Add(basis.right.Scale(dx))
  }

  /** The spawn point is the orbit center moved by the same distance per
      pixel on both axes, `radius * tan(fov/2)` per half window height,
      counted from the window centre. */
  lemma SpawnAtPerPixel(s: PanOrbitState, t: Transform, axes: Axes, cursor: Vec2, width: real, height: real,
                        tanHalfFov: real)
    requires width > 0.0 && height > 0.0
    ensures var k := s.radius * tanHalfFov / (height / 2.0);
            var basis := axes(t.rotation);
            SpawnAt(s, t, axes, cursor, width, height, tanHalfFov)
            == s.center.Add(basis.Down().Scale(k * (cursor.y - height / 2.0)))
                       .Add(basis.right.Scale(k * (cursor.x - width / 2.0)))
  {
    SpawnOffsets(s.radius * tanHalfFov, cursor.x, cursor.y, width / 2.0, height / 2.0);
  }

  /** The two screen offsets of `SpawnAt`, as `t / hh` per pixel from the
      window centre. */
  lemma SpawnOffsets(t: real, cx: real, cy: real, hw: real, hh: real)
    requires hw > 0.0 && hh > 0.0
    ensures t * (cx / hw - 1.0) * (hw / hh) == t / hh * (cx - hw)
    ensures t * (cy / hh - 1.0) == t / hh * (cy - hh)
  {
    assert (cx / hw - 1.0) * hw == cx - hw;
    assert t * (cx / hw - 1.0) * (hw / hh) == t * ((cx / hw - 1.0) * hw) / hh;
    assert (cy / hh - 1.0) * hh == cy - hh;
    assert t * (cy / hh - 1.0) == t * ((cy / hh - 1.0) * hh) / hh;
  }

  /** `mouse_click_system` for one camera. With left Shift held, 20
      particles are created at the spawn point plus `jitter`; otherwise one
      particle at the spawn point. Without a cursor nothing happens. */
  function MouseClickSystem(store: Store, w: Window, s: PanOrbitState, t: Transform, axes: Axes, kbd: ButtonInput,
                            jitter: seq<Coord>, tanHalfFov: real): (r: Store)
    requires ValidWindow(w)
    requires |jitter| == CLUSTER_SIZE
    requires forall i :: 0 <= i < |jitter| ==> ValidJitter(jitter[i])
    ensures w.cursor.None? ==> r == store
    ensures w.cursor.Some? && kbd.Pressed(ShiftLeft) ==> r.count == store.count + 20 && |r.particles| == |store.particles| + 20
    ensures w.cursor.Some? && !kbd.Pressed(ShiftLeft) ==> r.count == store.count + 1 && |r.particles| == |store.particles| + 1
    ensures r.particles[..|store.particles|] == store.particles
    ensures Consistent(store) ==> Consistent(r)
    ensures w.cursor.Some? ==>
              var at := SpawnAt(s, t, axes, w.cursor.value, w.width, w.height, tanHalfFov);
              var base := WorldToVirtCoord(at.x, at.y, at.z);
              forall i :: |store.particles| <= i < |r.particles| ==>
                if kbd.Pressed(ShiftLeft) then InUnitBox(base, r.particles[i]) else r.particles[i] == base
  {
    match w.cursor
    case None => store
    case Some(cursor) =>
      var at := SpawnAt(s, t, axes, cursor, w.width, w.height, tanHalfFov);
      var base := WorldToVirtCoord(at.x, at.y, at.z);
      if kbd.Pressed(ShiftLeft) then SpawnCluster(store, base, jitter) else SpawnOne(store, base)
  }

  /** A click at the window centre without Shift spawns one particle at
      the orbit center, in simulation space. */
  lemma CentreClickSpawnsAtCenter(store: Store, w: Window, s: PanOrbitState, t: Transform, axes: Axes,
                                  kbd: ButtonInput, jitter: seq<Coord>, tanHalfFov: real)
    requires ValidWindow(w) && w.cursor == Some(Vec2(w.width / 2.0, w.height / 2.0))
    requires !kbd.Pressed(ShiftLeft)
    requires |jitter| == CLUSTER_SIZE
    requires forall i :: 0 <= i < |jitter| ==> ValidJitter(jitter[i])
    ensures MouseClickSystem(store, w, s, t, axes, kbd, jitter, tanHalfFov).particles[|store.particles|]
            .Scale(VIRT_ZOOM) == s.center
  {
  }
}

=== FILE: stepper.dfy ===
/** The equation selector and stepper of src/main.rs: the
    `ChaosEquationResource` configuration, the key-driven changes made to
    it by `keybind_listener`, and the per-tick integration of
    `vmove_particle_system`. */
module Stepper {
  import opened Vectors
  import opened ChaosEquations
  import opened Input

  /** The base step size `SIM_DT`. */
  const SIM_DT: real := 0.001

  /** The change of the step-size exponent per key press. */
  const DT_MULT_STEP: real := 0.2

  /** `ChaosEquationResource`: the active equation, the number of sub-steps
      per tick, and the exponent of the step-size multiplier. */
  datatype Config = Config(eq: ChaosEq, steps: nat, dtMult: real)

  /** The resource as first created. */
  const INITIAL_CONFIG: Config := Config(Lorenz, 1, 2.5)

  /** Digit1 selects the basic equation and wins over Digit2, which selects
      Lorenz; otherwise the selection is kept. */
  function SelectEquation(keys: ButtonInput, eq: ChaosEq): (r: ChaosEq)
    ensures keys.JustPressed(Digit1) ==> r == Basic
    ensures !keys.JustPressed(Digit1) && keys.JustPressed(Digit2) ==> r == Lorenz
    ensures !keys.JustPressed(Digit1) && !keys.JustPressed(Digit2) ==> r == eq
  {
    if keys.JustPressed(Digit1) then Basic
    else if keys.JustPressed(Digit2) then Lorenz
    else eq
  }

  /** NumpadAdd adds a sub-step and wins over NumpadSubtract, which removes
      one unless there are none left. */
  function AdjustSteps(keys: ButtonInput, steps: nat): (r: nat)
    ensures keys.JustPressed(NumpadAdd) ==> r == steps + 1
    ensures !keys.JustPressed(NumpadAdd) && keys.JustPressed(NumpadSubtract) && steps == 0 ==> r == 0
    ensures !keys.JustPressed(NumpadAdd) && keys.JustPressed(NumpadSubtract) && steps > 0 ==> r + 1 == steps
    ensures !keys.JustPressed(NumpadAdd) && !keys.JustPressed(NumpadSubtract) ==> r == steps
  {
    if keys.JustPressed(NumpadAdd) then steps + 1
    else if keys.JustPressed(NumpadSubtract) then (if steps != 0 then steps - 1 else steps)
    else steps
  }

  /** BracketRight raises the exponent by 0.2 and wins over BracketLeft,
      which lowers it by 0.2; there is no bound either way. */
  function AdjustDtMult(keys: ButtonInput, dtMult: real): (r: real)
    ensures r - dtMult in {DT_MULT_STEP, -DT_MULT_STEP, 0.0}
    ensures keys.JustPressed(BracketRight) ==> r == dtMult + DT_MULT_STEP
    ensures !keys.JustPressed(BracketRight) && keys.JustPressed(BracketLeft) ==> r == dtMult - DT_MULT_STEP
    ensures !keys.JustPressed(BracketRight) && !keys.JustPressed(BracketLeft) ==> r == dtMult
  {
    if keys.JustPressed(BracketRight) then dtMult + DT_MULT_STEP
    else if keys.JustPressed(BracketLeft) then dtMult - DT_MULT_STEP
    else dtMult
  }

  /** What one run of `keybind_listener` does: the new configuration, and
      whether the despawn-all system was requested (KeyC). */
  datatype KeyOutcome = KeyOutcome(config: Config, clearParticles: bool)

  /** `keybind_listener`: a clear is requested exactly on KeyC, and each
      field of the configuration changes only through its own keys. */
  function KeybindListener(keys: ButtonInput, c: Config): (r: KeyOutcome)
    ensures r.clearParticles <==> keys.JustPressed(KeyC)
    ensures r.config.eq != c.eq ==> keys.JustPressed(Digit1) || keys.JustPressed(Digit2)
    ensures r.config.steps != c.steps ==> keys.JustPressed(NumpadAdd) || keys.JustPressed(NumpadSubtract)
    ensures r.config.dtMult != c.dtMult ==> keys.JustPressed(BracketRight) || keys.JustPressed(BracketLeft)
    ensures c.steps - 1 <= r.config.steps <= c.steps + 1
    ensures keys.JustPressed(Digit1) ==> r.config.eq == Basic
    ensures !keys.JustPressed(Digit1) && keys.JustPressed(Digit2) ==> r.config.eq == Lorenz
  {
    KeyOutcome(Config(SelectEquation(keys, c.eq), AdjustSteps(keys, c.steps), AdjustDtMult(keys, c.dtMult)),
               keys.JustPressed(KeyC))
  }

  /** The keys `keybind_listener` reacts to. */
  const LISTENER_KEYS: set<KeyCode> :=
    {KeyC, Digit1, Digit2, NumpadAdd, NumpadSubtract, BracketRight, BracketLeft}

  /** With none of its keys pressed, the listener changes nothing. */
  lemma KeybindIdle(keys: ButtonInput, c: Config)
    requires forall k :: k in LISTENER_KEYS ==> !keys.JustPressed(k)
    ensures KeybindListener(keys, c) == KeyOutcome(c, false)
  {
  }

  /** Subtract after add returns to the start; add after subtract does too
      unless the count was already at the floor of 0. */
  lemma StepsAddSubtract(steps: nat)
    ensures AdjustSteps(ButtonInput({NumpadSubtract}, {NumpadSubtract}),
                        AdjustSteps(ButtonInput({NumpadAdd}, {NumpadAdd}), steps)) == steps
    ensures AdjustSteps(ButtonInput({NumpadAdd}, {NumpadAdd}),
                        AdjustSteps(ButtonInput({NumpadSubtract}, {NumpadSubtract}), steps))
            == if steps == 0 then 1 else steps
  {
  }

  /** The step size of every sub-step, `SIM_DT * 2^dtMult`; `pow2` is the
      opaque `powf(2.0, _)`. */
  function EffectiveDt(c: Config, pow2: real -> PosReal): (dt: real)
    ensures dt > 0.0
  {
    SIM_DT * pow2(c.dtMult)
  }

  /** `n` applications of `eq`, each with the same `dt`, in the order of the
      source's loop. */
  function Iterate(eq: ChaosEq, n: nat, p: Coord, dt: real): Coord
    decreases n
  {
    if n == 0 then p else Iterate(eq, n - 1, Step(eq, p, dt), dt)
  }

  /** The last of `n + 1` steps is applied to the result of the first `n`. */
  lemma {:induction false} IterateSnoc(eq: ChaosEq, n: nat, p: Coord, dt: real)
    ensures Iterate(eq, n + 1, p, dt) == Step(eq, Iterate(eq, n, p, dt), dt)
    decreases n
  {
    if n > 0 {
      IterateSnoc(eq, n - 1, Step(eq, p, dt), dt);
    }
  }

  /** `m + n` steps are `n` steps after `m` steps. */
  lemma {:induction false} IterateAdd(eq: ChaosEq, m: nat, n: nat, p: Coord, dt: real)
    ensures Iterate(eq, m + n, p, dt) == Iterate(eq, n, Iterate(eq, m, p, dt), dt)
    decreases m
  {
    if m > 0 {
      IterateAdd(eq, m - 1, n, Step(eq, p, dt), dt);
    }
  }

  /** A fixed point of one step is a fixed point of any number of steps. */
  lemma {:induction false} IterateFixedPoint(eq: ChaosEq, n: nat, p: Coord, dt: real)
    requires Step(eq, p, dt) == p
    ensures Iterate(eq, n, p, dt) == p
    decreases n
  {
    if n > 0 {
      IterateFixedPoint(eq, n - 1, p, dt);
    }
  }

  /** A particle at the origin under Lorenz never moves. */
  lemma LorenzOriginStays(n: nat, dt: real)
    ensures Iterate(Lorenz, n, ORIGIN, dt) == ORIGIN
  {
    IterateFixedPoint(Lorenz, n, ORIGIN, dt);
  }

  /** `n` basic steps of size `dt` move every axis by `n * dt`. */
  lemma {:induction false} BasicIterateDrift(n: nat, p: Coord, dt: real)
    ensures Iterate(Basic, n, p, dt).Sub(p) == Vec3(n as real * dt, n as real * dt, n as real * dt)
    decreases n
  {
    if n > 0 {
      var q := Step(Basic, p, dt);
      BasicIterateDrift(n - 1, q, dt);
      assert (n - 1) as real * dt + dt == n as real * dt;
    }
  }

  /** Sub-stepping is not a larger step: two Lorenz steps of size 1 from
      (0, 1, 0) differ from one step of size 2. */
  lemma SubstepsAreNotOneLongStep()
    ensures Iterate(Lorenz, 2, Vec3(0.0, 1.0, 0.0), 1.0) != Step(Lorenz, Vec3(0.0, 1.0, 0.0), 2.0)
  {
    assert Iterate(Lorenz, 2, Vec3(0.0, 1.0, 0.0), 1.0) == Iterate(Lorenz, 1, Vec3(10.0, 1.0, 0.0), 1.0);
  }

  /** The inner loop of `vmove_particle_system` for one particle. */
  method MoveParticle(eq: ChaosEq, steps: nat, p: Coord, dt: real) returns (r: Coord)
    ensures r == Iterate(eq, steps, p, dt)
  {
    r := p;
    var i := 0;
    while i < steps
      invariant i <= steps
      invariant r == Iterate(eq, i, p, dt)
    {
      IterateSnoc(eq, i, p, dt);
      r := Step(eq, r, dt);
      i := i + 1;
    }
  }

  /** `vmove_particle_system`: every particle becomes the `steps`-fold
      iterate of the active equation at the effective step size. */
  method VmoveParticleSystem(ps: seq<Coord>, c: Config, pow2: real -> PosReal) returns (r: seq<Coord>)
    ensures |r| == |ps|
    ensures forall i :: 0 <= i < |ps| ==> r[i] == Iterate(c.eq, c.steps, ps[i], EffectiveDt(c, pow2))
    ensures c.steps == 0 ==> r == ps
    ensures r == Tick(ps, c.eq, c.steps, EffectiveDt(c, pow2))
  {
    var dt := EffectiveDt(c, pow2);
    r := [];
    var k := 0;
    while k < |ps|
      invariant k <= |ps|
      invariant |r| == k
      invariant forall i :: 0 <= i < k ==> r[i] == Iterate(c.eq, c.steps, ps[i], dt)
    {
      var q := MoveParticle(c.eq, c.steps, ps[k], dt);
      r := r + [q];
      k := k + 1;
    }
  }

  /** One tick over the whole particle set, as a function. */
  function Tick(ps: seq<Coord>, eq: ChaosEq, n: nat, dt: real): (r: seq<Coord>)
    ensures |r| == |ps|
  {
    seq(|ps|, i requires 0 <= i < |ps| => Iterate(eq, n, ps[i], dt))
  }

  /** `k` ticks with the same configuration. */
  function Run(ps: seq<Coord>, eq: ChaosEq, n: nat, dt: real, k: nat): (r: seq<Coord>)
    ensures |r| == |ps|
    decreases k
  {
    if k == 0 then ps else Run(Tick(ps, eq, n, dt), eq, n, dt, k - 1)
  }

  /** `k` ticks of `n` sub-steps are `k * n` steps of the same size. */
  lemma {:induction false} RunIsIterate(ps: seq<Coord>, eq: ChaosEq, n: nat, dt: real, k: nat, i: nat)
    requires i < |ps|
    ensures Run(ps, eq, n, dt, k)[i] == Iterate(eq, k * n, ps[i], dt)
    decreases k
  {
    if k > 0 {
      var ps' := Tick(ps, eq, n, dt);
      RunIsIterate(ps', eq, n, dt, k - 1, i);
      IterateAdd(eq, n, (k - 1) * n, ps[i], dt);
      assert n + (k - 1) * n == k * n;
    }
  }

  /** A paused simulation (no sub-steps) leaves every particle in place, for
      any number of ticks. */
  lemma {:induction false} PausedRunKeepsParticles(ps: seq<Coord>, eq: ChaosEq, dt: real, k: nat)
    ensures Run(ps, eq, 0, dt, k) == ps
    decreases k
  {
    if k > 0 {
      assert Tick(ps, eq, 0, dt) == ps;
      PausedRunKeepsParticles(ps, eq, dt, k - 1);
    }
  }

  /** A particle spawned at the origin with Lorenz active stays there for
      any number of ticks of any sub-step count. */
  lemma LorenzOriginRunStays(n: nat, dt: real, k: nat)
    ensures Run([ORIGIN], Lorenz, n, dt, k) == [ORIGIN]
  {
    RunIsIterate([ORIGIN], Lorenz, n, dt, k, 0);
    LorenzOriginStays(k * n, dt);
  }

  /** With the basic equation active, `k` ticks of `n` sub-steps move every
      particle by `k * n * dt` on each axis. */
  lemma BasicRunDrift(ps: seq<Coord>, n: nat, dt: real, k: nat, i: nat)
    requires i < |ps|
    ensures var d := (k * n) as real * dt;
            Run(ps, Basic, n, dt, k)[i].Sub(ps[i]) == Vec3(d, d, d)
  {
    RunIsIterate(ps, Basic, n, dt, k, i);
    BasicIterateDrift(k * n, ps[i], dt);
  }

  /** With the configuration the program starts with, a tick is a single
      Lorenz step of size `SIM_DT * 2^2.5`. */
  lemma InitialTickIsOneLorenzStep(ps: seq<Coord>, pow2: real -> PosReal, i: nat)
    requires i < |ps|
    ensures Tick(ps, INITIAL_CONFIG.eq, INITIAL_CONFIG.steps, EffectiveDt(INITIAL_CONFIG, pow2))[i]
            == LorenzAttractorEquation(ps[i], SIM_DT * pow2(2.5))
  {
    assert Iterate(Lorenz, 1, ps[i], SIM_DT * pow2(2.5)) == Iterate(Lorenz, 0, Step(Lorenz, ps[i], SIM_DT * pow2(2.5)), SIM_DT * pow2(2.5));
  }
}

=== FILE: transforms.dfy ===
/** The part of the rendering library's `Transform` the core touches. The
    quaternion maths behind `Quat::from_euler` and `transform.right()`/
    `up()`/`down()`/`back()` is foreign code: a rotation is kept as the
    yaw/pitch pair it was built from, and its basis vectors come from an
    opaque function `axes` that every caller passes in. */
module Transforms {
  import opened Vectors

  /** `Quat::from_euler(EulerRot::YXZ, yaw, pitch, 0.0)`. */
  datatype Rotation = Euler(yaw: real, pitch: real)

  const IDENTITY: Rotation := Euler(0.0, 0.0)

  const UNIT_SCALE: Vec3 := Vec3(1.0, 1.0, 1.0)

  datatype Transform = Transform(translation: Vec3, rotation: Rotation, scale: Vec3)

  /** `Transform::from_xyz`: a pure translation. */
  function FromXyz(x: real, y: real, z: real): Transform {
    Transform(Vec3(x, y, z), IDENTITY, UNIT_SCALE)
  }

  /** The local right, up and back directions of a rotation; `down()` is
      `-up()`. */
  datatype Basis = Basis(right: Vec3, up: Vec3, back: Vec3) {
    function Down(): Vec3 {
      up.Neg()
    }
  }

  /** The opaque mapping from a rotation to its basis vectors. */
  type Axes = Rotation -> Basis
}

=== FILE: vectors.dfy ===
/** Real-valued vectors and the small numeric vocabulary shared by every
    other module: `Vec3` stands for both the simulation-space `Coord` (f64)
    and the display-space `Vec3` (f32), `Vec2` for mouse-motion and scroll deltas.
    Floating point is modelled by `real`, so no rounding happens anywhere. */
module Vectors {

  datatype Vec3 = Vec3(x: real, y: real, z: real) {

    function Add(o: Vec3): Vec3 {
      Vec3(x + o.x, y + o.y, z + o.z)
    }

    function Sub(o: Vec3): Vec3 {
      Vec3(x - o.x, y - o.y, z - o.z)
    }

    /** Component-wise `v * k`. */
    function Scale(k: real): Vec3 {
      Vec3(x * k, y * k, z * k)
    }

    function Neg(): Vec3 {
      Vec3(-x, -y, -z)
    }

    /** Component-wise division, `v / k`. */
    function Div(k: real): Vec3
      requires k != 0.0
    {
      Vec3(x / k, y / k, z / k)
    }
  }

  const ZERO3: Vec3 := Vec3(0.0, 0.0, 0.0)

  datatype Vec2 = Vec2(x: real, y: real) {

    function Add(o: Vec2): Vec2 {
      Vec2(x + o.x, y + o.y)
    }

    function Sub(o: Vec2): Vec2 {
      Vec2(x - o.x, y - o.y)
    }

    function Scale(k: real): Vec2 {
      Vec2(x * k, y * k)
    }
  }

  const ZERO2: Vec2 := Vec2(0.0, 0.0)

  /** Strictly positive reals: the codomain of `exp` and of `2^x`. */
  type PosReal = r: real | r > 0.0 witness 1.0

  /** The optional values of the source (`Option<T>`). */
  datatype Option<+T> = None | Some(value: T)

  function Abs(r: real): real {
    if r < 0.0 then -r else r
  }
}
